=== FILE: README.md ===
# WebSocket opening handshake, server side (HTTP/1.1)

A Dafny model of `src/http1_1.rs`, the server-side validator and responder
for the WebSocket opening handshake of RFC 6455 (section 4.2). It covers:

- `check_request_headers` checks the request's mandatory headers in a fixed
  order. These are `Connection: Upgrade`, `Upgrade: websocket`,
  `Sec-WebSocket-Version: 13` and a present `Sec-WebSocket-Key`.
- It then collects the requested extensions and subprotocols from the optional
  `Sec-WebSocket-Extensions` and `Sec-WebSocket-Protocol` headers.
- `assert_header` performs one mandatory check: the header is present and its
  last value matches exactly.
- `HandshakeError` and its `Display` text.
- `HandshakeInfo::make_response` builds the 101 Switching Protocols reply.
- `convert_key` derives the `Sec-WebSocket-Accept` value from the key: it takes
  SHA-1 of the key bytes followed by the RFC 6455 GUID, then base64-encodes it.

Modules, one per concern:

| module | file | what it holds |
|---|---|---|
| `Wrappers` | `wrappers.dfy` | `Option`, `Result`, and `Outcome` (the `Result<(), E>` of `assert_header`) |
| `Text` | `text.dfy` | `str::split` with a one-character separator and its inverse `Join`; `str::trim` over Unicode `White_Space` |
| `Utf8` | `utf8.dfy` | `str::as_bytes`, the UTF-8 encoding of a string, with a validating per-character decoder that pins it |
| `AcceptKey` | `accept_key.dfy` | `convert_key` and the incremental SHA-1 hasher it drives |
| `Http` | `http.dfy` | the header store of a request or response (name to ordered, non-empty values) and `Response` |
| `HandshakeErrors` | `handshake_error.dfy` | `HandshakeError` and `Display` |
| `Negotiation` | `negotiation.dfy` | the extension and protocol loops, and the lists they build |
| `Handshake` | `handshake.dfy` | `assert_header`, `check_request_headers`, and `make_response` |

How the pieces are stated:

- Two reference definitions describe the optional headers.
  - `Extensions(values)` trims the `;`-free comma pieces of all values.
  - `Protocols(values)` trims every comma piece.
  - The source's nested `while`/`for` loops are methods proved equal to these.
- The order of the mandatory checks is a table, `MandatoryHeaders`.
  - `FirstViolation` reports the error of the first entry a request violates.
  - `CheckRequestHeaders` is proved to fail exactly with that error, and to succeed exactly when `Accepted` holds.
- SHA-1 and base64 are taken as two function values of a `Crypto` record.
  - The model assumes nothing about them beyond their types.
  - So `convert_key` is stated as the composition `base64(sha1(key ++ GUID))`.

Behaviour worth knowing, as the code has it:

- Every check reads only the last value of a repeated header.
- Value comparisons are exact and case-sensitive, and each header is compared
  as a whole. RFC 6455 (section 4.2.1) asks for an `Upgrade` header containing
  `websocket` and a `Connection` header containing the `Upgrade` token, both
  compared ASCII case-insensitively, with `Connection` read as a
  comma-separated token list. The code departs from that: `Connection:
  keep-alive, Upgrade` or `Upgrade: WebSocket` is rejected with
  `InvalidHeaderValue` (see `WrongConnectionReported`).
- Any key value is accepted, the empty string included. RFC 6455 (section
  4.1) has the client send a base64-encoded 16-byte nonce, but the code
  checks only that the header is present. `CheckRequestHeaders` therefore
  succeeds with `key == ""` when the last key value is empty.

## Model

| member | source | states |
|---|---|---|
| AcceptKey.ConvertKey | src/http1_1.rs:14-22 | the accept value is the base64 encoding of the SHA-1 digest of the key bytes followed by the GUID bytes, for every key |
| AcceptKey.GuidBytes | src/http1_1.rs:17 | the GUID byte string is 36 bytes, each the ASCII code of the corresponding character of `258EAFA5-E914-47DA-95CA-C5AB0DC85B11` |
| AcceptKey.NewSha1 | src/http1_1.rs:18 | a fresh hasher has absorbed nothing |
| AcceptKey.Input | src/http1_1.rs:19-20 | feeding data extends what the hasher has absorbed by exactly that data, keeping what it had |
| AcceptKey.Finalize | src/http1_1.rs:21 | the digest of everything absorbed; characterised by `StreamedDigest` and used by `ConvertKey` |
| AcceptKey.StreamedDigest | src/http1_1.rs:18-21 | feeding the hasher several chunks in turn and finishing gives the digest of their concatenation |
| AcceptKey.InputAllIsConcat | src/http1_1.rs:18-20 | after a sequence of `input` calls the hasher has absorbed exactly the concatenation of the chunks, in order |
| HandshakeErrors.Display | src/http1_1.rs:34-49 | a message starts with `Missing required header ` exactly when the error is a missing header, and a missing-header message is one character longer than the prefix and the name together |
| HandshakeErrors.DisplayNamesInvalidValue | src/http1_1.rs:40-46 | an invalid-value message reads back, through `InvalidValueOf`, as the header, the expected value (or none) and the found value it was rendered from, provided the found value and the header contain no backquote |
| HandshakeErrors.DisplayInvalidAmbiguous | src/http1_1.rs:41 | without that proviso the rendering is not injective: a found value ``a` for header `b`` with header `c` and a found value `a` with header ``b` for header `c`` give the same message |
| HandshakeErrors.DisplayNamesMissingHeader | src/http1_1.rs:37-39 | the header name can be read back from a missing-header message, and an invalid-value message never reads as a missing-header one |
| HandshakeErrors.DisplayMissingInjective | src/http1_1.rs:37-39 | different missing headers give different messages |
| HandshakeErrors.DisplayExpectedSuffix | src/http1_1.rs:40-46 | an invalid-value message with an expected value is the message without one, followed by `, expected` and the value in backquotes |
| Http.Last | src/http1_1.rs:76 | the last value is one of the header's values; with `LastOfAppended`, the value added most recently |
| Http.LastOfAppended | src/http1_1.rs:98 | appending a value to a header's values makes it the last value, whatever came before |
| Http.NewResponse | src/http1_1.rs:62 | a new response has the given status and no headers |
| Http.InsertHeader | src/http1_1.rs:65-67 | inserting a header leaves it with the one given value, adds its name, and changes no other header and not the status |
| Handshake.MakeResponse | src/http1_1.rs:61-70 | the response is 101 and has exactly three headers, `Upgrade: websocket`, `Connection: Upgrade`, and `Sec-WebSocket-Accept` set to the accept value of the key's UTF-8 bytes |
| Handshake.AssertHeader | src/http1_1.rs:73-88 | three outcomes: an absent header gives MissingHeader; a last value other than the expected one gives InvalidHeaderValue carrying the expected and found values; otherwise the check passes |
| Handshake.AssertHeaderReadsLastValueOnly | src/http1_1.rs:74-79 | two requests that agree on the presence and last value of the header get the same outcome, whatever their other values |
| Handshake.AssertHeaderIsViolation | src/http1_1.rs:73-88 | `assert_header` fails exactly when the table entry with an expected value is violated, and with the same error |
| Handshake.FirstViolation | src/http1_1.rs:91-100 | no error exactly when every requirement is met; otherwise the error of a requirement that is violated while all earlier ones are met |
| Handshake.AcceptedIffNoViolation | src/http1_1.rs:91-100 | a request meets all four mandatory requirements exactly when it has the three expected last values and a key header with any value |
| Handshake.MissingConnectionReportedFirst | src/http1_1.rs:91 | a missing Connection header is the error reported, whatever else is wrong |
| Handshake.MissingHeaderReported | src/http1_1.rs:91-97 | a header missing while every earlier check passes is reported as MissingHeader with its name |
| Handshake.WrongConnectionReported | src/http1_1.rs:91 | a Connection header with a wrong last value is reported with the expected `Upgrade` and the value found |
| Handshake.CheckRequestHeaders | src/http1_1.rs:90-146 | success exactly when the request is accepted. A failure carries the first violated requirement's error. A success carries the key's last value and the extension and protocol lists of the reference definitions, empty when their header is absent |
| Negotiation.CollectExtensions | src/http1_1.rs:106-125 | the extension loop yields the trimmed `;`-free comma pieces of the values, in order, and nothing for no values |
| Negotiation.CollectProtocols | src/http1_1.rs:127-139 | the protocol loop yields every comma piece of the values trimmed, in order, and nothing for no values |
| Negotiation.PushExtensions | src/http1_1.rs:112-121 | the inner loop over one value's pieces appends the trimmed `;`-free pieces, in order, to the list built so far |
| Negotiation.PushProtocols | src/http1_1.rs:133-135 | the inner loop over one value's pieces appends every piece trimmed, in order, to the list built so far |
| Negotiation.ExtensionsAreBareTokens | src/http1_1.rs:112-120 | no extension contains `;` or starts or ends with whitespace |
| Negotiation.ExtensionsMembership | src/http1_1.rs:112-120 | a token is an extension exactly when it is the trim of some comma piece without `;` |
| Negotiation.HasParameters | src/http1_1.rs:114 | `ext_string.contains(";")`: a piece carries parameters exactly when it contains `;`; `ParameterlessMembership` states the filter it drives |
| Negotiation.ParameterlessMembership | src/http1_1.rs:114-116 | the filter keeps exactly the pieces without `;` |
| Negotiation.ProtocolsArePieces | src/http1_1.rs:131-135 | there are as many protocols as the sum over the values of (commas + 1), and protocol i is the trim of piece i |
| Negotiation.PiecesOfPlainValue | src/http1_1.rs:112 | a value without a comma contributes itself as its only piece |
| Negotiation.PiecesOfPair | src/http1_1.rs:112 | a value `a,b` with comma-free `a` and `b` gives the pieces `a` and `b` |
| Negotiation.ParameterisedExtensionDropped | src/http1_1.rs:112-120 | in `a,b` with a parameterised `a` and a plain `b`, the only extension is `b` trimmed |
| Negotiation.ProtocolPairKept | src/http1_1.rs:133-134 | in `a,b` both protocols are kept, in order, each trimmed |
| Text.Split | src/http1_1.rs:112 | `str::split` on one character: at least one piece; `SplitCount`, `JoinSplit`, `SplitJoin` and `SplitPiecesLackSeparator` characterise it |
| Text.SplitCount | src/http1_1.rs:112 | splitting on a separator that occurs k times gives k + 1 pieces, empty ones included |
| Text.SplitPiecesLackSeparator | src/http1_1.rs:133 | no piece of a split contains the separator |
| Text.JoinSplit | src/http1_1.rs:133 | joining the pieces with the separator gives back the split string |
| Text.SplitJoin | src/http1_1.rs:133 | splitting a join of separator-free pieces gives back the pieces |
| Text.IsWhitespace | src/http1_1.rs:118 | `char::is_whitespace`, which decides what `trim` strips: exactly the 25 code points with the Unicode `White_Space` property (U+0009 to U+000D, U+0020, U+0085, U+00A0, U+1680, U+2000 to U+200A, U+2028, U+2029, U+202F, U+205F, U+3000) |
| Text.Trim | src/http1_1.rs:118 | the trim has no whitespace at either end and sits in the string with only whitespace before and after it |
| Text.TrimUnique | src/http1_1.rs:134 | any slice with no whitespace at its ends and only whitespace around it is the trim |
| Text.TrimIdempotent | src/http1_1.rs:118 | trimming twice is trimming once |
| Text.TrimKeepsOut | src/http1_1.rs:118 | trimming cannot introduce a character the string lacks |
| Utf8.Encode | src/http1_1.rs:64 | `str::as_bytes`: between one and four bytes per character; `EncodeAppend` makes it character by character and `DecodeCharExact` fixes each character's bytes as its well-formed UTF-8 form |
| Utf8.DecodeEncodeChar | src/http1_1.rs:64 | the validating decoder accepts the encoding of every character and gives the character back |
| Utf8.EncodeDecodeChar | src/http1_1.rs:64 | whatever the decoder accepts (right lead byte for the length, continuation bytes `10xxxxxx`, no overlong form, no surrogate, nothing above U+10FFFF) is exactly the encoding of the character it returns |
| Utf8.DecodeCharExact | src/http1_1.rs:64 | bytes decode to a character exactly when they are that character's encoding, so the encoding is the one well-formed UTF-8 form of RFC 3629 |
| Utf8.EncodeCharInjective | src/http1_1.rs:64 | different characters have different UTF-8 encodings |
| Utf8.EncodeAppend | src/http1_1.rs:64 | the encoding of a concatenation is the concatenation of the encodings |
| Utf8.EncodeAscii | src/http1_1.rs:64 | an ASCII string, such as a base64 key, encodes to its character codes, one byte per character |

## Left out

- SHA-1 and base64 internals: both come from foreign crates. They are function values the caller supplies, and nothing is assumed about them.
- The RFC 6455 test vector for the key `dGhlIHNhbXBsZSBub25jZQ==`: stating it needs a real SHA-1 and base64, which the model does not have.
- AcceptKey.ConvertKey: states only the composition of the two primitives. Determinism is the only other property that holds without their internals, and it is immediate in Dafny.
- Case-insensitive header-name lookup of `http_types`: names are assumed to be given in the canonical spelling the code uses, so lookup is exact.
- Header values come only from `Request::header`. The request is just its header store, because the code reads nothing else from it.
- `Response::new` defaults: these are the body, the HTTP version and the other fields. The model keeps only the status and the headers.
- The `Error` trait impl (line 51) and the `fmt::Formatter` plumbing: `Display` is modelled as the string the `write!` calls of each arm produce.
- Borrowing and lifetimes: `HandshakeInfo` holds owned strings, where the Rust struct holds slices into the request's values.
- Concrete examples such as `permessage-deflate; client_max_window_bits, foo` and `chat, superchat` are stated as lemmas over arbitrary comma-free `a` and `b`. They are not stated for the literal strings.

=== FILE: accept_key.dfy ===
/** `convert_key`: the Sec-WebSocket-Accept value derived from a client's
    Sec-WebSocket-Key (section 1.3 of RFC 6455).

    SHA-1 (FIPS 180-4) and base64 (section 4 of RFC 4648) come from foreign
    crates; the model takes them as function values in a `Crypto` record and
    assumes nothing about them beyond their types. */
module AcceptKey {
  import opened Utf8

  /** A SHA-1 digest: 160 bits. */
  type Digest = d: seq<byte> | |d| == 20 witness seq(20, _ => 0 as byte)

  datatype Crypto = Crypto(sha1: seq<byte> -> Digest, base64: seq<byte> -> string)

  /** The fixed GUID of RFC 6455, concatenated to every key before hashing. */
  const GuidText: string := "258EAFA5-E914-47DA-95CA-C5AB0DC85B11"

  /** The byte string literal `b"258EAFA5-..."`. */
  const WsGuid: seq<byte> := [
    0x32, 0x35, 0x38, 0x45, 0x41, 0x46, 0x41, 0x35, 0x2D, 0x45, 0x39, 0x31,
    0x34, 0x2D, 0x34, 0x37, 0x44, 0x41, 0x2D, 0x39, 0x35, 0x43, 0x41, 0x2D,
    0x43, 0x35, 0x41, 0x42, 0x30, 0x44, 0x43, 0x38, 0x35, 0x42, 0x31, 0x31
  ]

  /** The byte literal spells the GUID: 36 bytes, each the ASCII code of
      the corresponding character. */
  lemma GuidBytes()
    ensures |WsGuid| == |GuidText| == 36
    ensures forall k :: 0 <= k < 36 ==> WsGuid[k] as int == GuidText[k] as int
  {
  }

  // ---------------------------------------------------------------------
  // The incremental hasher of the `sha1` crate
  // ---------------------------------------------------------------------

  /** A SHA-1 hasher, described by the bytes fed to it so far. */
  datatype Sha1 = Sha1(absorbed: seq<byte>)

  /** `Sha1::default()`: nothing absorbed yet. */
  function NewSha1(): (h: Sha1)
    ensures |h.absorbed| == 0
  {
    Sha1([])
  }

  /** `sha1.input(data)`. */
  function Input(h: Sha1, data: seq<byte>): (h': Sha1)
    ensures |h'.absorbed| == |h.absorbed| + |data|
    ensures h'.absorbed[..|h.absorbed|] == h.absorbed
    ensures h'.absorbed[|h.absorbed|..] == data
  {
    Sha1(h.absorbed + data)
  }

  /** `sha1.result()`: the digest of everything absorbed. */
  function Finalize(crypto: Crypto, h: Sha1): Digest {
    crypto.sha1(h.absorbed)
  }

  function Concat(chunks: seq<seq<byte>>): seq<byte> {
    if |chunks| == 0 then [] else chunks[0] + Concat(chunks[1..])
  }

  lemma ConcatPair(a: seq<byte>, b: seq<byte>)
    ensures Concat([a, b]) == a + b
  {
    assert [a, b][1..] == [b] && [b][1..] == [];
    assert Concat([b]) == b + [] == b;
  }

  /** Feeding the chunks one by one, in order. */
  function InputAll(h: Sha1, chunks: seq<seq<byte>>): Sha1
    decreases |chunks|
  {
    if |chunks| == 0 then h else InputAll(Input(h, chunks[0]), chunks[1..])
  }

  /** Feeding chunks one after another is feeding their concatenation. */
  lemma {:induction false} InputAllIsConcat(h: Sha1, chunks: seq<seq<byte>>)
    ensures InputAll(h, chunks).absorbed == h.absorbed + Concat(chunks)
    decreases |chunks|
  {
    if |chunks| > 0 {
      InputAllIsConcat(Input(h, chunks[0]), chunks[1..]);
      assert h.absorbed + chunks[0] + Concat(chunks[1..])
          == h.absorbed + (chunks[0] + Concat(chunks[1..]));
    }
  }

  /** The digest of a stream of chunks is the hash of their concatenation. */
  lemma StreamedDigest(crypto: Crypto, chunks: seq<seq<byte>>)
    ensures Finalize(crypto, InputAll(NewSha1(), chunks)) == crypto.sha1(Concat(chunks))
  {
    InputAllIsConcat(NewSha1(), chunks);
    assert [] + Concat(chunks) == Concat(chunks);
  }

  /** `convert_key`: feed the key and then the GUID to a fresh hasher, and
      base64-encode the digest. Total: every byte string has an accept
      value. */
  function ConvertKey(crypto: Crypto, input: seq<byte>): (accept: string)
    ensures accept == crypto.base64(crypto.sha1(input + WsGuid))
  {
    var chunks := [input, WsGuid];
    StreamedDigest(crypto, chunks);
    ConcatPair(input, WsGuid);
    crypto.base64(Finalize(crypto, InputAll(NewSha1(), chunks)))
  }
}

=== FILE: handshake.dfy ===
/** The server side of the WebSocket opening handshake (section 4.2 of
    RFC 6455): `assert_header`, `check_request_headers` and
    `HandshakeInfo::make_response`. */
module Handshake {
  import opened Wrappers
  import opened Utf8
  import opened Http
  import opened HandshakeErrors
  import opened Negotiation
  import opened AcceptKey

  const ConnectionHeader: string := "Connection"
  const UpgradeHeader: string := "Upgrade"
  const VersionHeader: string := "Sec-WebSocket-Version"
  const KeyHeader: string := "Sec-WebSocket-Key"
  const ExtensionsHeader: string := "Sec-WebSocket-Extensions"
  const ProtocolHeader: string := "Sec-WebSocket-Protocol"
  const AcceptHeader: string := "Sec-WebSocket-Accept"

  /** A validated handshake: the client's key and the extensions and
      subprotocols it asked for, in the order it asked. */
  datatype HandshakeInfo = HandshakeInfo(key: string, extensions: seq<string>, protocols: seq<string>)

  // ---------------------------------------------------------------------
  // Mandatory headers
  // ---------------------------------------------------------------------

  /** `assert_header`: `header` must be present and its last value must be
      exactly `expected`. */
  function AssertHeader(req: Headers, header: string, expected: string): (r: Outcome<HandshakeError>)
    ensures header !in req ==> r == Fail(MissingHeader(header))
    ensures header in req && Last(req[header]) != expected ==>
      r == Fail(InvalidHeaderValue(header, Some(expected), Last(req[header])))
    ensures r.Pass? <==> header in req && Last(req[header]) == expected
  {
    if header !in req then
      Fail(MissingHeader(header))
    else
      var value := Last(req[header]);
      if value != expected then Fail(InvalidHeaderValue(header, Some(expected), value)) else Pass
  }

  /** Two requests that agree on whether `header` is present and on its
      last value get the same verdict: earlier values and other headers
      are never looked at. */
  lemma AssertHeaderReadsLastValueOnly(req: Headers, req': Headers, header: string, expected: string)
    requires header in req <==> header in req'
    requires header in req ==> Last(req[header]) == Last(req'[header])
    ensures AssertHeader(req, header, expected) == AssertHeader(req', header, expected)
  {
  }

  /** One mandatory header: its name and, unless any value will do, the
      value its last occurrence must have. */
  datatype Requirement = Requirement(header: string, expected: Option<string>)

  /** The mandatory headers in the order they are checked. */
  const MandatoryHeaders: seq<Requirement> := [
    Requirement(ConnectionHeader, Some("Upgrade")),
    Requirement(UpgradeHeader, Some("websocket")),
    Requirement(VersionHeader, Some("13")),
    Requirement(KeyHeader, None)
  ]

  /** The error `req` earns against one requirement, if any. */
  function Violation(req: Headers, rq: Requirement): Option<HandshakeError> {
    if rq.header !in req then
      Some(MissingHeader(rq.header))
    else
      match rq.expected
      case None => None
      case Some(value) =>
        if Last(req[rq.header]) == value then None
        else Some(InvalidHeaderValue(rq.header, Some(value), Last(req[rq.header])))
  }

  /** The error of the first requirement `req` violates. */
  function FirstViolation(req: Headers, rqs: seq<Requirement>): (v: Option<HandshakeError>)
    ensures v.None? <==> forall k :: 0 <= k < |rqs| ==> Violation(req, rqs[k]).None?
    ensures v.Some? ==> exists k :: 0 <= k < |rqs| && FirstViolated(req, rqs, k) && v == Violation(req, rqs[k])
  {
    if |rqs| == 0 then None
    else if Violation(req, rqs[0]).Some? then
      assert FirstViolated(req, rqs, 0);
      Violation(req, rqs[0])
    else
      var v := FirstViolation(req, rqs[1..]);
      if v.Some? then
        var k :| 0 <= k < |rqs| - 1 && FirstViolated(req, rqs[1..], k) && v == Violation(req, rqs[1..][k]);
        assert FirstViolated(req, rqs, k + 1);
        v
      else
        assert forall k :: 1 <= k < |rqs| ==> rqs[k] == rqs[1..][k - 1];
        v
  }

  /** Requirement `k` is violated and every earlier one is met. */
  predicate FirstViolated(req: Headers, rqs: seq<Requirement>, k: int) {
    && 0 <= k < |rqs|
    && Violation(req, rqs[k]).Some?
    && forall j :: 0 <= j < k ==> Violation(req, rqs[j]).None?
  }

  /** The request passes every mandatory check. */
  predicate Accepted(req: Headers) {
    && ConnectionHeader in req && Last(req[ConnectionHeader]) == "Upgrade"
    && UpgradeHeader in req && Last(req[UpgradeHeader]) == "websocket"
    && VersionHeader in req && Last(req[VersionHeader]) == "13"
    && KeyHeader in req
  }

  /** Only the mandatory headers decide acceptance, and any key value,
      the empty one included, is accepted. */
  lemma AcceptedIffNoViolation(req: Headers)
    ensures FirstViolation(req, MandatoryHeaders).None? <==> Accepted(req)
  {
    if Accepted(req) {
      forall k | 0 <= k < |MandatoryHeaders|
        ensures Violation(req, MandatoryHeaders[k]).None?
      {
      }
    } else {
      var k := if ConnectionHeader !in req || Last(req[ConnectionHeader]) != "Upgrade" then 0
               else if UpgradeHeader !in req || Last(req[UpgradeHeader]) != "websocket" then 1
               else if VersionHeader !in req || Last(req[VersionHeader]) != "13" then 2
               else 3;
      assert Violation(req, MandatoryHeaders[k]).Some?;
    }
  }

  /** A missing Connection header is reported whatever else is wrong with
      the request: with Upgrade missing too, the error names Connection. */
  lemma MissingConnectionReportedFirst(req: Headers)
    requires ConnectionHeader !in req
    ensures FirstViolation(req, MandatoryHeaders) == Some(MissingHeader(ConnectionHeader))
  {
    assert Violation(req, MandatoryHeaders[0]).Some?;
  }

  /** A header that is missing while every earlier check passes is
      reported as missing, by name. */
  lemma {:induction false} MissingHeaderReported(req: Headers, k: nat)
    requires k < |MandatoryHeaders|
    requires MandatoryHeaders[k].header !in req
    requires forall j :: 0 <= j < k ==> Violation(req, MandatoryHeaders[j]).None?
    ensures FirstViolation(req, MandatoryHeaders) == Some(MissingHeader(MandatoryHeaders[k].header))
  {
    var v := FirstViolation(req, MandatoryHeaders);
    assert Violation(req, MandatoryHeaders[k]).Some?;
    var i :| 0 <= i < |MandatoryHeaders| && FirstViolated(req, MandatoryHeaders, i)
      && v == Violation(req, MandatoryHeaders[i]);
    assert i == k;
  }

  /** A Connection header whose last value is not `Upgrade` (`keep-alive`,
      say) is reported with the expected and the found value. */
  lemma WrongConnectionReported(req: Headers)
    requires ConnectionHeader in req && Last(req[ConnectionHeader]) != "Upgrade"
    ensures FirstViolation(req, MandatoryHeaders)
         == Some(InvalidHeaderValue(ConnectionHeader, Some("Upgrade"), Last(req[ConnectionHeader])))
  {
    assert Violation(req, MandatoryHeaders[0]).Some?;
  }

  /** `AssertHeader` reports exactly what the table reports for a
      requirement with an expected value. */
  lemma AssertHeaderIsViolation(req: Headers, header: string, expected: string)
    ensures AssertHeader(req, header, expected).Fail?
        <==> Violation(req, Requirement(header, Some(expected))).Some?
    ensures AssertHeader(req, header, expected).Fail? ==>
      Violation(req, Requirement(header, Some(expected))) == Some(AssertHeader(req, header, expected).error)
  {
  }

  // ---------------------------------------------------------------------
  // check_request_headers
  // ---------------------------------------------------------------------

  /** `check_request_headers`: run the mandatory checks in order, stopping
      at the first failure; then take the key's last value and collect the
      requested extensions and subprotocols. */
  method CheckRequestHeaders(req: Headers) returns (r: Result<HandshakeInfo, HandshakeError>)
    ensures r.Success? <==> Accepted(req)
    ensures r.Failure? ==> FirstViolation(req, MandatoryHeaders) == Some(r.error)
    ensures r.Success? ==> KeyHeader in req && r.value.key == Last(req[KeyHeader])
    ensures r.Success? ==> r.value.extensions == Extensions(ValuesOf(req, ExtensionsHeader))
    ensures r.Success? ==> r.value.protocols == Protocols(ValuesOf(req, ProtocolHeader))
    ensures r.Success? && ExtensionsHeader !in req ==> r.value.extensions == []
    ensures r.Success? && ProtocolHeader !in req ==> r.value.protocols == []
  {
    AcceptedIffNoViolation(req);
    AssertHeaderIsViolation(req, ConnectionHeader, "Upgrade");
    AssertHeaderIsViolation(req, UpgradeHeader, "websocket");
    AssertHeaderIsViolation(req, VersionHeader, "13");
    assert MandatoryHeaders[0] == Requirement(ConnectionHeader, Some("Upgrade"));
    assert MandatoryHeaders[1] == Requirement(UpgradeHeader, Some("websocket"));
    assert MandatoryHeaders[2] == Requirement(VersionHeader, Some("13"));
    assert MandatoryHeaders[3] == Requirement(KeyHeader, None);

    :- AssertHeader(req, ConnectionHeader, "Upgrade");
    :- AssertHeader(req, UpgradeHeader, "websocket");
    :- AssertHeader(req, VersionHeader, "13");

    if KeyHeader !in req {
      MissingHeaderReported(req, 3);
      return Failure(MissingHeader(KeyHeader));
    }
    var key := Last(req[KeyHeader]);

    var extensions := [];
    if ExtensionsHeader in req {
      extensions := CollectExtensions(req[ExtensionsHeader]);
    }

    var protocols := [];
    if ProtocolHeader in req {
      protocols := CollectProtocols(req[ProtocolHeader]);
    }

    return Success(HandshakeInfo(key, extensions, protocols));
  }

  // ---------------------------------------------------------------------
  // make_response
  // ---------------------------------------------------------------------

  /** `make_response`: 101 Switching Protocols carrying exactly the three
      handshake response headers, the accept value derived from the key's
      UTF-8 bytes. */
  function MakeResponse(crypto: Crypto, info: HandshakeInfo): (res: Response)
    ensures res.status == SwitchingProtocols
    ensures res.headers.Keys == {UpgradeHeader, ConnectionHeader, AcceptHeader}
    ensures res.headers[UpgradeHeader] == ["websocket"]
    ensures res.headers[ConnectionHeader] == ["Upgrade"]
    ensures res.headers[AcceptHeader] == [crypto.base64(crypto.sha1(Encode(info.key) + WsGuid))]
  {
    var accept := ConvertKey(crypto, Encode(info.key));
    assert UpgradeHeader != ConnectionHeader && UpgradeHeader != AcceptHeader
      && ConnectionHeader != AcceptHeader by {
      assert |UpgradeHeader| == 7 && |ConnectionHeader| == 10 && |AcceptHeader| == 20;
    }
    InsertThree(NewResponse(SwitchingProtocols), UpgradeHeader, "websocket",
      ConnectionHeader, "Upgrade", AcceptHeader, accept);
    var created := NewResponse(SwitchingProtocols);
    var upgraded := InsertHeader(created, UpgradeHeader, "websocket");
    var connected := InsertHeader(upgraded, ConnectionHeader, "Upgrade");
    InsertHeader(connected, AcceptHeader, accept)
  }
}

=== FILE: handshake_error.dfy ===
/** `HandshakeError` and its `Display` rendering. */
module HandshakeErrors {
  import opened Wrappers
  import opened Text

  /** Why a request is not a valid opening handshake: a mandatory header is
      missing, or its value is not the one required. */
  datatype HandshakeError =
    | MissingHeader(header: string)
    | InvalidHeaderValue(header: string, expected: Option<string>, found: string)

  const MissingPrefix: string := "Missing required header `"
  const InvalidPrefix: string := "Invalid value `"
  const HeaderInfix: string := "` for header `"
  const ExpectedInfix: string := ", expected `"

  predicate StartsWith(s: string, prefix: string) {
    |prefix| <= |s| && s[..|prefix|] == prefix
  }

  /** `Display::fmt`: the message `write!` produces for the error. */
  function Display(e: HandshakeError): (text: string)
    ensures StartsWith(text, MissingPrefix) <==> e.MissingHeader?
    ensures e.MissingHeader? ==> |text| == |MissingPrefix| + |e.header| + 1
  {
    match e
    case MissingHeader(header) =>
      MissingPrefix + header + "`"
    case InvalidHeaderValue(header, expected, found) =>
      var text := InvalidPrefix + (found + HeaderInfix + header + "`" + ExpectedSuffix(expected));
      assert text[0] == 'I';
      text
  }

  /** The text `Display` appends after the header's closing backquote:
      the expected value, when there is one. */
  function ExpectedSuffix(expected: Option<string>): string {
    match expected
    case Some(value) => ExpectedInfix + value + "`"
    case None => ""
  }

  /** Reads the header name back out of a missing-header message. */
  function MissingHeaderOf(text: string): Option<string> {
    if |MissingPrefix| < |text| && StartsWith(text, MissingPrefix) && text[|text| - 1] == '`'
    then Some(text[|MissingPrefix|..|text| - 1])
    else None
  }

  /** A missing-header message names exactly its header, and no
      invalid-value message reads as a missing-header one. */
  lemma DisplayNamesMissingHeader(e: HandshakeError)
    ensures e.MissingHeader? ==> MissingHeaderOf(Display(e)) == Some(e.header)
    ensures e.InvalidHeaderValue? ==> MissingHeaderOf(Display(e)) == None
  {
    if e.MissingHeader? {
      var text := Display(e);
      assert text[|MissingPrefix|..|text| - 1] == e.header;
    }
  }

  /** Reads the found value, the header and the expected value back out of
      an invalid-value message. The found value and the header end at the
      first backquote after them; the expected value runs to the closing
      backquote at the very end. */
  function InvalidValueOf(text: string): Option<HandshakeError> {
    if StartsWith(text, InvalidPrefix) then ReadFound(text[|InvalidPrefix|..]) else None
  }

  /** The found value, up to the header infix. */
  function ReadFound(rest: string): Option<HandshakeError> {
    var i := IndexOf(rest, '`');
    if StartsWith(rest[i..], HeaderInfix) then ReadHeader(rest[..i], rest[i + |HeaderInfix|..]) else None
  }

  /** The header name, up to its closing backquote. */
  function ReadHeader(found: string, rest: string): Option<HandshakeError> {
    var j := IndexOf(rest, '`');
    if j < |rest| then ReadExpected(found, rest[..j], rest[j + 1..]) else None
  }

  /** Nothing, or the expected-value clause. */
  function ReadExpected(found: string, header: string, tail: string): Option<HandshakeError> {
    if tail == [] then
      Some(InvalidHeaderValue(header, None, found))
    else if |ExpectedInfix| < |tail| && StartsWith(tail, ExpectedInfix) && tail[|tail| - 1] == '`' then
      Some(InvalidHeaderValue(header, Some(tail[|ExpectedInfix|..|tail| - 1]), found))
    else
      None
  }

  /** An invalid-value message whose found value and header have no
      backquote reads back as the error it renders, expected value
      included. */
  lemma DisplayNamesInvalidValue(header: string, expected: Option<string>, found: string)
    requires '`' !in found && '`' !in header
    ensures InvalidValueOf(Display(InvalidHeaderValue(header, expected, found)))
         == Some(InvalidHeaderValue(header, expected, found))
  {
    var rest := found + HeaderInfix + header + "`" + ExpectedSuffix(expected);
    var text := InvalidPrefix + rest;
    assert text[..|InvalidPrefix|] == InvalidPrefix && text[|InvalidPrefix|..] == rest;
    ReadFoundBack(header, expected, found);
  }

  lemma ReadFoundBack(header: string, expected: Option<string>, found: string)
    requires '`' !in found && '`' !in header
    ensures ReadFound(found + HeaderInfix + header + "`" + ExpectedSuffix(expected))
         == Some(InvalidHeaderValue(header, expected, found))
  {
    var after := header + "`" + ExpectedSuffix(expected);
    AppendAssoc(found + HeaderInfix, header + "`", ExpectedSuffix(expected));
    AppendAssoc(found + HeaderInfix, header, "`");
    Delimited(found, HeaderInfix, after, '`');
    ReadHeaderBack(header, expected, found);
  }

  /** `a`, then a delimiter starting with `d`, then `b`: the first `d` is
      the delimiter's, and slicing there gives the three parts back. */
  lemma Delimited(a: string, delim: string, b: string, d: char)
    requires d !in a && |delim| > 0 && delim[0] == d
    ensures var s := a + delim + b;
      && IndexOf(s, d) == |a|
      && s[..|a|] == a
      && StartsWith(s[|a|..], delim)
      && s[|a| + |delim|..] == b
  {
    var s := a + delim + b;
    assert s == a + [d] + (delim[1..] + b);
    FirstSeparator(a, delim[1..] + b, d);
    assert s[|a|..] == delim + b;
  }

  lemma ReadHeaderBack(header: string, expected: Option<string>, found: string)
    requires '`' !in header
    ensures ReadHeader(found, header + "`" + ExpectedSuffix(expected))
         == Some(InvalidHeaderValue(header, expected, found))
  {
    var suffix := ExpectedSuffix(expected);
    var rest := header + "`" + suffix;
    FirstSeparator(header, suffix, '`');
    assert rest[..|header|] == header;
    assert rest[|header| + 1..] == suffix;
    if expected.Some? {
      assert suffix[..|ExpectedInfix|] == ExpectedInfix;
      assert suffix[|ExpectedInfix|..|suffix| - 1] == expected.value;
    }
  }

  /** The rendering is not injective once a found value contains a
      backquote: moving text between the found value and the header can
      give the same message. */
  lemma DisplayInvalidAmbiguous(a: string, b: string, c: string, expected: Option<string>)
    ensures Display(InvalidHeaderValue(c, expected, a + HeaderInfix + b))
         == Display(InvalidHeaderValue(b + HeaderInfix + c, expected, a))
  {
    AppendAssoc(a + HeaderInfix, b, HeaderInfix);
    AppendAssoc(a + HeaderInfix, b + HeaderInfix, c);
  }

  /** Messages for different missing headers differ. */
  lemma DisplayMissingInjective(a: string, b: string)
    requires Display(MissingHeader(a)) == Display(MissingHeader(b))
    ensures a == b
  {
    DisplayNamesMissingHeader(MissingHeader(a));
    DisplayNamesMissingHeader(MissingHeader(b));
  }

  /** The expected value is reported as a suffix, and only when there is
      one. */
  lemma DisplayExpectedSuffix(header: string, expected: string, found: string)
    ensures Display(InvalidHeaderValue(header, Some(expected), found))
         == Display(InvalidHeaderValue(header, None, found)) + ExpectedInfix + expected + "`"
  {
    var body := found + HeaderInfix + header + "`";
    var clause := ExpectedInfix + expected + "`";
    assert body + [] == body;
    AppendAssoc(body, ExpectedInfix + expected, "`");
    AppendAssoc(body, ExpectedInfix, expected);
    AppendAssoc(InvalidPrefix, body, clause);
    AppendAssoc(InvalidPrefix + body, ExpectedInfix + expected, "`");
    AppendAssoc(InvalidPrefix + body, ExpectedInfix, expected);
  }

  lemma AppendAssoc(x: string, y: string, z: string)
    ensures x + (y + z) == x + y + z
  {
  }
}

=== FILE: http.dfy ===
/** The parts of the host HTTP layer (`http_types`) the handshake touches:
    a header store mapping each header name to the values received for it,
    in order, and a response made of a status code and such a store.
    Header names are taken as already canonical, so lookup is exact. */
module Http {

  /** The values of one header in the order they were added; a present
      header has at least one value. */
  type HeaderValues = vs: seq<string> | |vs| > 0 witness [""]

  type Headers = map<string, HeaderValues>

  /** `HeaderValues::last()`: the most recently added value. */
  function Last(vs: HeaderValues): (v: string)
    ensures v in vs
  {
    vs[|vs| - 1]
  }

  /** A value appended to a header's values becomes its last value, whatever
      came before. */
  lemma LastOfAppended(vs: seq<string>, v: string)
    ensures Last(vs + [v]) == v
  {
  }

  /** All values of `name`, or none when the header is absent. */
  function ValuesOf(headers: Headers, name: string): (vs: seq<string>)
    ensures name !in headers ==> vs == []
    ensures name in headers ==> |vs| > 0 && vs[|vs| - 1] == Last(headers[name])
  {
    if name in headers then headers[name] else []
  }

  /** `StatusCode::SwitchingProtocols`. */
  const SwitchingProtocols: nat := 101

  datatype Response = Response(status: nat, headers: Headers)

  /** `Response::new(status)`: no headers yet. */
  function NewResponse(status: nat): (res: Response)
    ensures res.status == status
    ensures res.headers.Keys == {}
  {
    Response(status, map[])
  }

  /** `res.insert_header(name, value)`: `name` now has exactly the one value
      `value`, replacing any it had; no other header and not the status
      changes. */
  function InsertHeader(res: Response, name: string, value: string): (res': Response)
    ensures res'.status == res.status
    ensures name in res'.headers && res'.headers[name] == [value]
    ensures res'.headers.Keys == res.headers.Keys + {name}
    ensures forall n :: n in res.headers && n != name ==> res'.headers[n] == res.headers[n]
  {
    res.(headers := res.headers[name := [value]])
  }

  /** Three distinct headers inserted into a response without headers are
      all it then has, each with its one value. */
  lemma InsertThree(res: Response, a: string, va: string, b: string, vb: string, c: string, vc: string)
    requires res.headers.Keys == {}
    requires a != b && a != c && b != c
    ensures var res' := InsertHeader(InsertHeader(InsertHeader(res, a, va), b, vb), c, vc);
      && res'.status == res.status
      && res'.headers.Keys == {a, b, c}
      && res'.headers[a] == [va] && res'.headers[b] == [vb] && res'.headers[c] == [vc]
  {
  }
}

=== FILE: negotiation.dfy ===
/** Parsing of the two optional negotiation headers, Sec-WebSocket-Extensions
    and Sec-WebSocket-Protocol, into ordered token lists. */
module Negotiation {
  import opened Text

  /** Every comma-separated piece of the values: value order first, then left
      to right within a value. */
  function Pieces(values: seq<string>): (pieces: seq<string>)
    ensures |pieces| == PieceCount(values)
  {
    if |values| == 0 then []
    else
      SplitCount(values[|values| - 1], ',');
      Pieces(values[..|values| - 1]) + Split(values[|values| - 1], ',')
  }

  /** Sum over the values of (number of commas + 1). */
  function PieceCount(values: seq<string>): nat {
    if |values| == 0 then 0
    else PieceCount(values[..|values| - 1]) + Count(values[|values| - 1], ',') + 1
  }

  /** An extension token carrying parameters contains `;`. */
  predicate HasParameters(token: string) {
    ';' in token
  }

  /** The pieces without parameters, in their original order. */
  function Parameterless(pieces: seq<string>): (kept: seq<string>)
    ensures |kept| <= |pieces|
    ensures forall k :: 0 <= k < |kept| ==> kept[k] in pieces && !HasParameters(kept[k])
  {
    if |pieces| == 0 then []
    else
      var last := pieces[|pieces| - 1];
      Parameterless(pieces[..|pieces| - 1]) + (if HasParameters(last) then [] else [last])
  }

  function TrimAll(pieces: seq<string>): seq<string> {
    seq(|pieces|, k requires 0 <= k < |pieces| => Trim(pieces[k]))
  }

  lemma TrimAllSnoc(pieces: seq<string>, p: string)
    ensures TrimAll(pieces + [p]) == TrimAll(pieces) + [Trim(p)]
  {
  }

  lemma ParameterlessSnoc(pieces: seq<string>, p: string)
    ensures Parameterless(pieces + [p])
         == Parameterless(pieces) + (if HasParameters(p) then [] else [p])
  {
    assert (pieces + [p])[..|pieces|] == pieces;
  }

  /** The extension list: the trimmed parameter-free pieces. */
  function Extensions(values: seq<string>): seq<string> {
    TrimAll(Parameterless(Pieces(values)))
  }

  /** The protocol list: every piece, trimmed, nothing filtered. */
  function Protocols(values: seq<string>): seq<string> {
    TrimAll(Pieces(values))
  }

  // ---------------------------------------------------------------------
  // The loops of check_request_headers
  // ---------------------------------------------------------------------

  /** Pieces of one more value: those of the earlier values, then its own. */
  lemma PiecesSnoc(values: seq<string>, i: nat)
    requires i < |values|
    ensures Pieces(values[..i + 1]) == Pieces(values[..i]) + Split(values[i], ',')
  {
    assert values[..i + 1][..i] == values[..i];
  }

  /** One more piece extends the extension list by its trim, unless it
      carries parameters. */
  lemma ExtensionsStep(done: seq<string>, pieces: seq<string>, j: nat)
    requires j < |pieces|
    ensures TrimAll(Parameterless(done + pieces[..j + 1]))
         == TrimAll(Parameterless(done + pieces[..j]))
            + (if HasParameters(pieces[j]) then [] else [Trim(pieces[j])])
  {
    assert done + pieces[..j + 1] == (done + pieces[..j]) + [pieces[j]];
    ParameterlessSnoc(done + pieces[..j], pieces[j]);
    TrimAllSnoc(Parameterless(done + pieces[..j]), pieces[j]);
  }

  /** One more piece extends the protocol list by its trim. */
  lemma ProtocolsStep(done: seq<string>, pieces: seq<string>, j: nat)
    requires j < |pieces|
    ensures TrimAll(done + pieces[..j + 1]) == TrimAll(done + pieces[..j]) + [Trim(pieces[j])]
  {
    assert done + pieces[..j + 1] == (done + pieces[..j]) + [pieces[j]];
    TrimAllSnoc(done + pieces[..j], pieces[j]);
  }

  /** The extension loop: for each value in order, split on `,`, skip the
      pieces containing `;`, and push the others trimmed. */
  method CollectExtensions(values: seq<string>) returns (extensions: seq<string>)
    ensures extensions == Extensions(values)
    ensures |values| == 0 ==> extensions == []
  {
    extensions := [];
    var i := 0;
    while i < |values|
      invariant 0 <= i <= |values|
      invariant extensions == TrimAll(Parameterless(Pieces(values[..i])))
    {
      PiecesSnoc(values, i);
      extensions := PushExtensions(extensions, Pieces(values[..i]), Split(values[i], ','));
      i := i + 1;
    }
    assert values[..i] == values;
  }

  /** The inner `for` of the extension loop, over the pieces of one value. */
  method PushExtensions(extensions: seq<string>, done: seq<string>, pieces: seq<string>)
    returns (extensions': seq<string>)
    requires extensions == TrimAll(Parameterless(done))
    ensures extensions' == TrimAll(Parameterless(done + pieces))
  {
    extensions' := extensions;
    var j := 0;
    assert done + pieces[..0] == done;
    while j < |pieces|
      invariant 0 <= j <= |pieces|
      invariant extensions' == TrimAll(Parameterless(done + pieces[..j]))
    {
      ExtensionsStep(done, pieces, j);
      if !HasParameters(pieces[j]) {
        extensions' := extensions' + [Trim(pieces[j])];
      }
      j := j + 1;
    }
    assert pieces[..j] == pieces;
  }

  /** The protocol loop: for each value in order, split on `,` and push
      every piece trimmed. */
  method CollectProtocols(values: seq<string>) returns (protocols: seq<string>)
    ensures protocols == Protocols(values)
    ensures |values| == 0 ==> protocols == []
  {
    protocols := [];
    var i := 0;
    while i < |values|
      invariant 0 <= i <= |values|
      invariant protocols == TrimAll(Pieces(values[..i]))
    {
      PiecesSnoc(values, i);
      protocols := PushProtocols(protocols, Pieces(values[..i]), Split(values[i], ','));
      i := i + 1;
    }
    assert values[..i] == values;
  }

  /** The inner `for` of the protocol loop, over the pieces of one value. */
  method PushProtocols(protocols: seq<string>, done: seq<string>, pieces: seq<string>)
    returns (protocols': seq<string>)
    requires protocols == TrimAll(done)
    ensures protocols' == TrimAll(done + pieces)
  {
    protocols' := protocols;
    var j := 0;
    assert done + pieces[..0] == done;
    while j < |pieces|
      invariant 0 <= j <= |pieces|
      invariant protocols' == TrimAll(done + pieces[..j])
    {
      ProtocolsStep(done, pieces, j);
      protocols' := protocols' + [Trim(pieces[j])];
      j := j + 1;
    }
    assert pieces[..j] == pieces;
  }

  // ---------------------------------------------------------------------
  // Properties of the two lists
  // ---------------------------------------------------------------------

  /** No extension carries parameters or surrounding whitespace. */
  lemma ExtensionsAreBareTokens(values: seq<string>)
    ensures forall k :: 0 <= k < |Extensions(values)| ==>
      !HasParameters(Extensions(values)[k]) && IsTrimmed(Extensions(values)[k])
  {
    var kept := Parameterless(Pieces(values));
    forall k | 0 <= k < |kept|
      ensures !HasParameters(Trim(kept[k]))
    {
      TrimKeepsOut(kept[k], ';');
    }
  }

  /** A token is an extension exactly when it is the trim of some
      parameter-free piece. */
  lemma {:induction false} ExtensionsMembership(values: seq<string>, token: string)
    ensures token in Extensions(values) <==>
      exists p :: p in Pieces(values) && !HasParameters(p) && Trim(p) == token
  {
    ParameterlessMembership(Pieces(values));
    var kept := Parameterless(Pieces(values));
    if token in Extensions(values) {
      var k :| 0 <= k < |kept| && Extensions(values)[k] == token;
      assert kept[k] in Pieces(values);
    }
    if p :| p in Pieces(values) && !HasParameters(p) && Trim(p) == token {
      var k :| 0 <= k < |kept| && kept[k] == p;
      assert Extensions(values)[k] == token;
    }
  }

  /** `Parameterless` keeps exactly the pieces without parameters. */
  lemma {:induction false} ParameterlessMembership(pieces: seq<string>)
    ensures forall p :: p in Parameterless(pieces) <==> p in pieces && !HasParameters(p)
    decreases |pieces|
  {
    if |pieces| > 0 {
      var init := pieces[..|pieces| - 1];
      ParameterlessMembership(init);
      assert pieces == init + [pieces[|pieces| - 1]];
    }
  }

  /** There is one protocol per comma piece: the sum over the values of
      (number of commas + 1), each the trim of its piece. */
  lemma ProtocolsArePieces(values: seq<string>)
    ensures |Protocols(values)| == PieceCount(values)
    ensures forall k :: 0 <= k < |Protocols(values)| ==> Protocols(values)[k] == Trim(Pieces(values)[k])
  {
  }

  /** A value with no comma contributes exactly one piece: itself. */
  lemma PiecesOfPlainValue(values: seq<string>, v: string)
    requires ',' !in v
    ensures Pieces(values + [v]) == Pieces(values) + [v]
  {
    SplitWithoutSeparator(v, ',');
    assert (values + [v])[..|values|] == values;
  }

  // ---------------------------------------------------------------------
  // Worked examples
  // ---------------------------------------------------------------------

  /** A value made of two comma-free pieces. */
  lemma PiecesOfPair(a: string, b: string)
    requires ',' !in a && ',' !in b
    ensures Pieces([a + [','] + b]) == [a, b]
  {
    var values := [a + [','] + b];
    assert values[..0] == [];
    SplitJoin([a, b], ',');
    assert [a, b][1..] == [b];
  }

  /** In `a, b` with a parameterised `a` (`permessage-deflate;
      client_max_window_bits, foo`, say) the first extension is dropped and
      the second kept, trimmed (`foo`). */
  lemma ParameterisedExtensionDropped(a: string, b: string)
    requires ',' !in a && ',' !in b
    requires HasParameters(a) && !HasParameters(b)
    ensures Extensions([a + [','] + b]) == [Trim(b)]
  {
    PiecesOfPair(a, b);
    ParameterlessSnoc([], a);
    assert [] + [a] == [a];
    ParameterlessSnoc([a], b);
    assert [a] + [b] == [a, b];
  }

  /** In `a, b` (`chat, superchat`, say) both protocols are kept, in order,
      trimmed (`chat` then `superchat`). */
  lemma ProtocolPairKept(a: string, b: string)
    requires ',' !in a && ',' !in b
    ensures Protocols([a + [','] + b]) == [Trim(a), Trim(b)]
  {
    PiecesOfPair(a, b);
  }
}

=== FILE: text.dfy ===
/** The two string primitives the handshake parser relies on: Rust's
    `str::split` with a one-character separator and `str::trim`. */
module Text {

  /** Rust's `char::is_whitespace`: the characters carrying the Unicode
      `White_Space` property. */
  predicate IsWhitespace(c: char) {
    || ('\U{9}' <= c <= '\U{D}')
    || c == ' '
    || c == '\U{85}'
    || c == '\U{A0}'
    || c == '\U{1680}'
    || ('\U{2000}' <= c <= '\U{200A}')
    || c == '\U{2028}'
    || c == '\U{2029}'
    || c == '\U{202F}'
    || c == '\U{205F}'
    || c == '\U{3000}'
  }

  /** Every character of `s` at an index in `[lo, hi)` is whitespace. */
  predicate WhitespaceBetween(s: string, lo: int, hi: int) {
    forall k :: lo <= k < hi && 0 <= k < |s| ==> IsWhitespace(s[k])
  }

  /** Neither the first nor the last character is whitespace. */
  predicate IsTrimmed(s: string) {
    |s| > 0 ==> !IsWhitespace(s[0]) && !IsWhitespace(s[|s| - 1])
  }

  // ---------------------------------------------------------------------
  // Splitting
  // ---------------------------------------------------------------------

  /** Index of the first `d` in `s`, or `|s|` when there is none. */
  function IndexOf(s: string, d: char): (i: nat)
    ensures i <= |s|
    ensures forall k :: 0 <= k < i ==> s[k] != d
    ensures i < |s| ==> s[i] == d
  {
    if |s| == 0 || s[0] == d then 0 else 1 + IndexOf(s[1..], d)
  }

  /** `s.split(d)`: the text up to the next `d`, then the split of the rest;
      the whole of `s` when no `d` is left. Empty pieces are kept, so `k`
      separators give `k + 1` pieces. */
  function Split(s: string, d: char): (pieces: seq<string>)
    ensures |pieces| > 0
    decreases |s|
  {
    var i := IndexOf(s, d);
    if i == |s| then [s] else [s[..i]] + Split(s[i + 1..], d)
  }

  /** Number of occurrences of `d` in `s`. */
  function Count(s: string, d: char): nat {
    if |s| == 0 then 0 else (if s[0] == d then 1 else 0) + Count(s[1..], d)
  }

  /** `k` separators give `k + 1` pieces. */
  lemma {:induction false} SplitCount(s: string, d: char)
    ensures |Split(s, d)| == Count(s, d) + 1
    decreases |s|
  {
    var i := IndexOf(s, d);
    CountFromFirst(s, d);
    if i < |s| {
      SplitCount(s[i + 1..], d);
    }
  }

  /** Counting resumes after the first separator; with none, there are none. */
  lemma {:induction false} CountFromFirst(s: string, d: char)
    ensures IndexOf(s, d) == |s| ==> Count(s, d) == 0
    ensures IndexOf(s, d) < |s| ==> Count(s, d) == 1 + Count(s[IndexOf(s, d) + 1..], d)
    decreases |s|
  {
    if |s| > 0 && s[0] != d {
      CountFromFirst(s[1..], d);
      var i := IndexOf(s[1..], d);
      if i < |s| - 1 {
        assert s[1..][i + 1..] == s[i + 2..];
      }
    }
  }

  /** No piece contains the separator. */
  lemma {:induction false} SplitPiecesLackSeparator(s: string, d: char)
    ensures forall k :: 0 <= k < |Split(s, d)| ==> d !in Split(s, d)[k]
    decreases |s|
  {
    var i := IndexOf(s, d);
    if i < |s| {
      SplitPiecesLackSeparator(s[i + 1..], d);
      assert d !in s[..i];
    }
  }

  /** The inverse of `Split`: the pieces glued back with `d` between them. */
  function Join(pieces: seq<string>, d: char): string
    requires |pieces| > 0
  {
    if |pieces| == 1 then pieces[0]
    else pieces[0] + [d] + Join(pieces[1..], d)
  }

  /** Gluing the pieces back together gives the original string. */
  lemma {:induction false} JoinSplit(s: string, d: char)
    ensures Join(Split(s, d), d) == s
    decreases |s|
  {
    var i := IndexOf(s, d);
    if i < |s| {
      var head, tail := s[..i], s[i + 1..];
      var rest := Split(tail, d);
      assert Split(s, d) == [head] + rest;
      JoinSplit(tail, d);
      JoinCons(head, rest, d);
      assert s == head + [d] + tail;
    }
  }

  /** `Join` of a piece in front of a non-empty list. */
  lemma JoinCons(p: string, rest: seq<string>, d: char)
    requires |rest| > 0
    ensures Join([p] + rest, d) == p + [d] + Join(rest, d)
  {
    assert ([p] + rest)[1..] == rest;
  }

  /** A string without the separator is a single piece. */
  lemma SplitWithoutSeparator(s: string, d: char)
    requires d !in s
    ensures Split(s, d) == [s]
  {
  }

  /** Splitting a join of separator-free pieces gives the pieces back. */
  lemma {:induction false} SplitJoin(pieces: seq<string>, d: char)
    requires |pieces| > 0
    requires forall k :: 0 <= k < |pieces| ==> d !in pieces[k]
    ensures Split(Join(pieces, d), d) == pieces
    decreases |pieces|
  {
    if |pieces| == 1 {
      SplitWithoutSeparator(pieces[0], d);
    } else {
      var first, rest := pieces[0], Join(pieces[1..], d);
      var s := first + [d] + rest;
      FirstSeparator(first, rest, d);
      assert s[..|first|] == first && s[|first| + 1..] == rest;
      SplitJoin(pieces[1..], d);
      assert [pieces[0]] + pieces[1..] == pieces;
    }
  }

  /** The first separator of `a + [d] + b`, for a separator-free `a`, is the
      one after `a`. */
  lemma {:induction false} FirstSeparator(a: string, b: string, d: char)
    requires d !in a
    ensures IndexOf(a + [d] + b, d) == |a|
    decreases |a|
  {
    if |a| > 0 {
      assert (a + [d] + b)[0] == a[0] && a[0] in a;
      assert (a + [d] + b)[1..] == a[1..] + [d] + b;
      FirstSeparator(a[1..], b, d);
    }
  }

  // ---------------------------------------------------------------------
  // Trimming
  // ---------------------------------------------------------------------

  /** `r` sits at offset `i` of `s` and everything around it is whitespace. */
  predicate WhitespaceMargins(s: string, r: string, i: nat) {
    && i + |r| <= |s|
    && s[i..i + |r|] == r
    && WhitespaceBetween(s, 0, i)
    && WhitespaceBetween(s, i + |r|, |s|)
  }

  /** Number of whitespace characters `s` starts with. */
  function LeadingWhitespace(s: string): (n: nat)
    ensures n <= |s|
    ensures WhitespaceBetween(s, 0, n)
    ensures n < |s| ==> !IsWhitespace(s[n])
  {
    if |s| > 0 && IsWhitespace(s[0]) then 1 + LeadingWhitespace(s[1..]) else 0
  }

  /** Number of whitespace characters `s` ends with. */
  function TrailingWhitespace(s: string): (n: nat)
    ensures n <= |s|
    ensures WhitespaceBetween(s, |s| - n, |s|)
    ensures n < |s| ==> !IsWhitespace(s[|s| - n - 1])
  {
    if |s| > 0 && IsWhitespace(s[|s| - 1]) then 1 + TrailingWhitespace(s[..|s| - 1]) else 0
  }

  /** `s.trim()`: the slice of `s` between its leading and its trailing
      whitespace. */
  function Trim(s: string): (r: string)
    ensures IsTrimmed(r)
    ensures WhitespaceMargins(s, r, LeadingWhitespace(s))
  {
    var start := LeadingWhitespace(s);
    var end := |s| - TrailingWhitespace(s);
    if start < end then s[start..end] else ""
  }

  /** Any trimmed slice with only whitespace around it is the trim: `Trim`
      is determined by its contract. */
  lemma TrimUnique(s: string, r: string, i: nat)
    requires WhitespaceMargins(s, r, i)
    requires IsTrimmed(r)
    ensures Trim(s) == r
  {
    var t := Trim(s);
    var i' := LeadingWhitespace(s);
    // A non-empty trimmed slice starts at the first non-whitespace
    // character of `s` and ends after the last one.
    if |r| > 0 {
      SliceEnds(s, r, i);
    }
    if |t| > 0 {
      SliceEnds(s, t, i');
    }
    assert |r| == |t|;
    assert |r| > 0 ==> i == i';
  }

  lemma SliceEnds(s: string, r: string, i: nat)
    requires WhitespaceMargins(s, r, i)
    requires |r| > 0
    ensures s[i] == r[0] && s[i + |r| - 1] == r[|r| - 1]
  {
    assert s[i..i + |r|][0] == s[i];
    assert s[i..i + |r|][|r| - 1] == s[i + |r| - 1];
  }

  /** Trimming twice is trimming once. */
  lemma TrimIdempotent(s: string)
    ensures Trim(Trim(s)) == Trim(s)
  {
    var r := Trim(s);
    assert WhitespaceMargins(r, r, 0);
    TrimUnique(r, r, 0);
  }

  /** Trimming only removes characters, so it cannot introduce one. */
  lemma TrimKeepsOut(s: string, c: char)
    requires c !in s
    ensures c !in Trim(s)
  {
    var r, i := Trim(s), LeadingWhitespace(s);
    assert forall k :: 0 <= k < |r| ==> r[k] == s[i + k];
  }
}

=== FILE: utf8.dfy ===
/** `str::as_bytes`: the UTF-8 encoding of a string (RFC 3629). A Dafny
    `char` is a Unicode scalar value, exactly like a Rust `char`. */
module Utf8 {
  import opened Wrappers

  newtype byte = b: int | 0 <= b < 0x100

  /** The one to four bytes encoding one scalar value: the value's bits,
      six at a time from the right, behind a lead byte marking the length. */
  function EncodeChar(c: char): (bs: seq<byte>)
    ensures 1 <= |bs| <= 4
    ensures |bs| == 1 <==> c as int < 0x80
  {
    var n := c as int;
    var m1 := n / 0x40;
    var m2 := m1 / 0x40;
    var m3 := m2 / 0x40;
    if n < 0x80 then
      [n as byte]
    else if n < 0x800 then
      [(0xC0 + m1) as byte, (0x80 + n % 0x40) as byte]
    else if n < 0x1_0000 then
      [(0xE0 + m2) as byte, (0x80 + m1 % 0x40) as byte, (0x80 + n % 0x40) as byte]
    else
      [(0xF0 + m3) as byte, (0x80 + m2 % 0x40) as byte, (0x80 + m1 % 0x40) as byte,
       (0x80 + n % 0x40) as byte]
  }

  predicate IsScalarValue(n: int) {
    0 <= n < 0xD800 || 0xE000 <= n < 0x11_0000
  }

  /** A continuation byte: `10xxxxxx`. */
  predicate IsContinuation(b: byte) {
    0x80 <= b < 0xC0
  }

  /** The payload of continuation byte `b`: its low six bits. */
  function Payload(b: byte): int {
    b as int - 0x80
  }

  /** The character `bs` is the well-formed UTF-8 encoding of, if any: the
      lead byte gives the length (0xxxxxxx, 110xxxxx, 1110xxxx, 11110xxx),
      each continuation byte adds six bits, and overlong forms, surrogates
      and values above U+10FFFF are rejected (section 3 of RFC 3629). */
  function DecodeChar(bs: seq<byte>): Option<char> {
    if |bs| == 1 && bs[0] < 0x80 then
      Some(bs[0] as int as char)
    else if |bs| == 2 && 0xC2 <= bs[0] < 0xE0 && IsContinuation(bs[1]) then
      Some(((bs[0] as int - 0xC0) * 0x40 + Payload(bs[1])) as char)
    else if |bs| == 3 && 0xE0 <= bs[0] < 0xF0 && IsContinuation(bs[1]) && IsContinuation(bs[2]) then
      var n := ((bs[0] as int - 0xE0) * 0x40 + Payload(bs[1])) * 0x40 + Payload(bs[2]);
      if 0x800 <= n && IsScalarValue(n) then Some(n as char) else None
    else if |bs| == 4 && 0xF0 <= bs[0] < 0xF5 && IsContinuation(bs[1]) && IsContinuation(bs[2])
                      && IsContinuation(bs[3]) then
      var n := (((bs[0] as int - 0xF0) * 0x40 + Payload(bs[1])) * 0x40 + Payload(bs[2])) * 0x40
               + Payload(bs[3]);
      if 0x1_0000 <= n < 0x11_0000 then Some(n as char) else None
    else
      None
  }

  /** The encoding of a whole string: the encodings of its characters,
      back to back. */
  function Encode(s: string): (bs: seq<byte>)
    ensures |s| <= |bs| <= 4 * |s|
  {
    if |s| == 0 then [] else EncodeChar(s[0]) + Encode(s[1..])
  }

  /** `DecodeChar` undoes `EncodeChar`. */
  lemma DecodeEncodeChar(c: char)
    ensures DecodeChar(EncodeChar(c)) == Some(c)
  {
    var n := c as int;
    var m1 := n / 0x40;
    var m2 := m1 / 0x40;
    var m3 := m2 / 0x40;
    assert n == m1 * 0x40 + n % 0x40;
    assert m1 == m2 * 0x40 + m1 % 0x40;
    assert m2 == m3 * 0x40 + m2 % 0x40;
  }

  /** Whatever `DecodeChar` accepts is exactly the encoding of the character
      it returns: no overlong or otherwise malformed form decodes. */
  lemma EncodeDecodeChar(bs: seq<byte>)
    requires DecodeChar(bs).Some?
    ensures EncodeChar(DecodeChar(bs).value) == bs
  {
    var n := DecodeChar(bs).value as int;
    if |bs| == 2 {
      DivMod64((bs[0] as int - 0xC0), Payload(bs[1]));
    } else if |bs| == 3 {
      var m1 := (bs[0] as int - 0xE0) * 0x40 + Payload(bs[1]);
      DivMod64(m1, Payload(bs[2]));
      DivMod64(bs[0] as int - 0xE0, Payload(bs[1]));
    } else if |bs| == 4 {
      var m2 := (bs[0] as int - 0xF0) * 0x40 + Payload(bs[1]);
      var m1 := m2 * 0x40 + Payload(bs[2]);
      DivMod64(m1, Payload(bs[3]));
      DivMod64(m2, Payload(bs[2]));
      DivMod64(bs[0] as int - 0xF0, Payload(bs[1]));
    }
  }

  lemma DivMod64(q: int, r: int)
    requires 0 <= r < 0x40
    ensures (q * 0x40 + r) / 0x40 == q && (q * 0x40 + r) % 0x40 == r
  {
  }

  /** `bs` decodes to `c` exactly when `bs` is the encoding of `c`. */
  lemma DecodeCharExact(bs: seq<byte>, c: char)
    ensures DecodeChar(bs) == Some(c) <==> bs == EncodeChar(c)
  {
    DecodeEncodeChar(c);
    if DecodeChar(bs) == Some(c) {
      EncodeDecodeChar(bs);
    }
  }

  /** Different characters have different encodings. */
  lemma EncodeCharInjective(a: char, b: char)
    requires EncodeChar(a) == EncodeChar(b)
    ensures a == b
  {
    DecodeEncodeChar(a);
    DecodeEncodeChar(b);
  }

  /** Encoding turns concatenation of strings into concatenation of bytes. */
  lemma {:induction false} EncodeAppend(s: string, t: string)
    ensures Encode(s + t) == Encode(s) + Encode(t)
    decreases |s|
  {
    if |s| > 0 {
      assert (s + t)[0] == s[0] && (s + t)[1..] == s[1..] + t;
      EncodeAppend(s[1..], t);
      calc {
        Encode(s + t);
        EncodeChar(s[0]) + Encode(s[1..] + t);
        EncodeChar(s[0]) + (Encode(s[1..]) + Encode(t));
        (EncodeChar(s[0]) + Encode(s[1..])) + Encode(t);
        Encode(s) + Encode(t);
      }
    } else {
      assert s + t == t;
    }
  }

  predicate IsAscii(s: string) {
    forall k :: 0 <= k < |s| ==> s[k] as int < 0x80
  }

  /** An ASCII string encodes to its character codes, one byte each. */
  lemma {:induction false} EncodeAscii(s: string)
    requires IsAscii(s)
    ensures |Encode(s)| == |s|
    ensures forall k :: 0 <= k < |s| ==> Encode(s)[k] as int == s[k] as int
    decreases |s|
  {
    if |s| > 0 {
      assert IsAscii(s[1..]) by {
        assert forall k :: 0 <= k < |s| - 1 ==> s[1..][k] == s[k + 1];
      }
      EncodeAscii(s[1..]);
      assert forall k :: 1 <= k < |s| ==> Encode(s)[k] == Encode(s[1..])[k - 1];
    }
  }
}

=== FILE: wrappers.dfy ===
/** Failure-compatible wrappers used throughout the model: `Option` for Rust's
    `Option`, `Result` for Rust's `Result<T, E>`, and `Outcome` for a
    `Result<(), E>` (a check that either passes or fails with an error). */
module Wrappers {

  datatype Option<+T> = None | Some(value: T)

  datatype Result<+T, +E> = Success(value: T) | Failure(error: E) {

    predicate IsFailure() {
      Failure?
    }

    function PropagateFailure<U>(): Result<U, E>
      requires Failure?
    {
      Failure(error)
    }

    function Extract(): T
      requires Success?
    {
      value
    }
  }

  /** `Result<(), E>`: usable with `:-` inside a method returning `Result<T, E>`. */
  datatype Outcome<+E> = Pass | Fail(error: E) {

    predicate IsFailure() {
      Fail?
    }

    function PropagateFailure<U>(): Result<U, E>
      requires Fail?
    {
      Failure(error)
    }
  }
}
